=== FILE: README.md ===
# LocalCast media library, modelled in Dafny

LocalCast serves a local folder of videos to players on the home network. Its
media library (`media_lib.py`) has three jobs:

- **The path sandbox** (`safe_resolve_media_path`) turns an untrusted request
  into a file path. A request is a scope (`common` or `tv`), an optional tv
  id, and a filename. The path must stay inside `MEDIA_ROOT/common` or
  `MEDIA_ROOT/tv_<id>`.
- **The catalog** (`_is_allowed_video`, `list_common_items`, `list_tv_items`)
  lists the playable files of a collection as `MediaItem`s. It keeps the
  regular files with an allowed extension, sorted case-insensitively.
- **The playlist builder** (`build_m3u`) writes those URLs as an M3U
  playlist.

The model is functional. Paths are sequences of segments. `pathlib`'s
`base / name`, `Path.resolve()` and `str(path)` are modelled in module
`Paths`:

- a leading `/` makes a path absolute;
- an absolute right-hand side of `/` replaces the left;
- resolution walks the segments: `.` is dropped, and `..` pops but never goes
  above `/`.

Module `Sandbox` models the containment test literally, on the rendered
strings: `startswith(str(base) + "/") or candidate == base`.
The contract of `Paths.Contained` states that this test equals a
segment-prefix test.
That equivalence holds only because of the appended separator:
`SiblingSharesStringPrefix` shows the sibling `tv_1x` that would slip through
without it.

The filesystem is modelled as a snapshot, a map from resolved paths to a node:
- a directory, with its entries in iteration order;
- something that is not a directory;
- an unreadable directory.

`MEDIA_ROOT` and `ALLOWED_EXTENSIONS` (`config.py:4`, `config.py:11-13`) are
parameters. `Catalog.AllowedExtensions` holds the configured set. `MediaItem`
(`media_lib.py:12-16`) is `Catalog.MediaItem`. Exceptions become the `Err`
side of a `Result`:
- `InvalidScope` and `TvIdRequired` for the two `ValueError`s;
- `Forbidden` for the `PermissionError`;
- `NotADirectoryError` and `PermissionDenied` for the `OSError`s that the
  listings let through.

Modules: `Results`, `Strings` (the Python `str` operations used), `Paths`,
`Sandbox`, `Catalog` and `Playlist`, one file each.

## Model

| member | source | states |
|---|---|---|
| `Sandbox.SafeResolveMediaPath` | media_lib.py:49-70 | Checks the scope first, so an unknown scope is `InvalidScope` whatever the tv id. Then a tv scope with a missing or empty id is `TvIdRequired`. A valid request succeeds exactly when the resolved candidate is the resolved base or lies below it. Its only other outcome is `Forbidden` (the source raises instead for a name holding a NUL character; see "## Left out"). On success it returns the resolved `base / filename`. It also keeps the docstring's promise (lines 51-52): an accepted path lies strictly below the resolved `MEDIA_ROOT`, given, in the tv scope, a tv id without a separator. |
| `Sandbox.BaseDir` | media_lib.py:57-64 | In the common scope, whatever the tv id, the resolved base is the resolved root plus `common`. In the tv scope, for an id without a separator, the empty id included, it is the resolved root plus `tv_<id>`. So the contract of `Catalog.ListTvItems` fixes its directory for every such id. |
| `Sandbox.Candidate` | media_lib.py:65 | An absolute filename replaces the base and is resolved on its own. A relative filename is resolved starting from the resolved base. |
| `Sandbox.TvIdWithSeparatorLeavesRoot` | media_lib.py:60-64 | The promise is relative to the base, not to the root. A tv id whose `..` segments climb past the root moves the base outside it. A file there is then accepted, at a path not under the root. |
| `Sandbox.EmptyFilenameIsBase` | media_lib.py:65-68 | An empty filename resolves to the base itself and is accepted. |
| `Sandbox.ParentsOnlyForbidden` | media_lib.py:65-70 | In the common scope, or in the tv scope for a tv id without a separator, a filename made only of `..` segments, relative or absolute, is rejected. |
| `Sandbox.ClimbOutForbidden` | media_lib.py:65-70 | In the common scope, or in the tv scope for a tv id without a separator, a relative filename whose first segment is `..` and that never names the base directory again is rejected, whatever it does after the first climb: `../a/../../etc/passwd` under tv id `1` is one. |
| `Sandbox.EtcPasswdForbidden` | media_lib.py:65-70 | `../../../etc/passwd` for tv id `7` is rejected, whatever the root. |
| `Sandbox.ClimbBackIntoBaseAccepted` | media_lib.py:65-68 | `../tv_<id>/...`, or `../common/...` in the common scope, climbs out of the base and back in. It is accepted and resolves inside the base. |
| `Sandbox.SiblingDirectoryForbidden` | media_lib.py:67-70 | A sibling such as `tv_1x` shares a string prefix with base `tv_1`, yet is rejected. |
| `Sandbox.AbsoluteEtcPasswdForbidden` | media_lib.py:65-70 | `/etc/passwd` is rejected in the common scope, and in the tv scope for a tv id without a separator, whatever the root. A tv id such as `x/../../etc` under root `/m` moves the base to `/etc`, and then the source accepts it. |
| `Sandbox.ResolveIdempotent` | media_lib.py:64-68 | Sending an accepted path back as an absolute filename is accepted again, with the same result. |
| `Paths.Contained` | media_lib.py:67 | The string test `startswith(str(base) + "/") or candidate == base` on resolved paths holds exactly when the base is the candidate or a proper segment prefix of it. A base of `/` admits only itself. |
| `Paths.SiblingSharesStringPrefix` | media_lib.py:67 | `/r/tv_1x/a` starts with the string `/r/tv_1` but is not contained in it. |
| `Paths.ParseRender` | media_lib.py:65 | Parsing `str(p)` of a resolved path gives back the same segments, as an absolute path. |
| `Paths.Resolve` | media_lib.py:64-65 | `resolve()` never gives more segments than its input has. A path made of plain segments is left as it is. |
| `Paths.Render` | media_lib.py:67 | `str(path)` of a resolved path starts with `/`. It is exactly `/` for the root and for no other path. |
| `Paths.ResolveRendered` | media_lib.py:64-65 | `resolve()` is idempotent: resolving the string of a resolved path gives that path. |
| `Paths.NormalizeAppend` | media_lib.py:65 | Resolving `a / b` is resolving `b` from where `a` led. |
| `Paths.NormalizeParents` | media_lib.py:65 | `k` `..` segments drop the last `k` segments, stopping at `/`. |
| `Paths.Parse` | media_lib.py:65 | A path string is absolute exactly when it starts with `/`. Its segments contain no `/`, and no empty or `.` segment remains. |
| `Paths.ParseJoined` | media_lib.py:65 | Plain segments written out with `/` parse back to those segments, as a relative path. |
| `Catalog.IsAllowedVideo` | media_lib.py:19-20 | Only a regular file can be a video. When the empty suffix is not allowed, a regular file is a video exactly when it has a dot, neither first nor last and with no dot after it, from which the lower-cased tail is allowed. |
| `Catalog.Suffix` | media_lib.py:20 | `Path.suffix` is empty exactly when the name has no dot after its first character or ends with a dot. Otherwise it is a proper tail of the name that starts with its only dot. |
| `Catalog.SuffixAt` | media_lib.py:20 | A dot that is neither the first nor the last character, with no dot after it, starts the suffix. |
| `Catalog.SuffixOfExtension` | media_lib.py:20 | The suffix of `stem.ext` is `.ext`, whatever dots the stem holds. |
| `Catalog.HiddenNameHasNoSuffix` | media_lib.py:20 | A name such as `.mp4`, whose only dot is the leading one, has no suffix. |
| `Catalog.AllowedVideoByExtension` | media_lib.py:19-20 | A regular file `stem.ext` is a video exactly when `.ext`, lower-cased, is allowed. A directory never is. |
| `Catalog.EligibleNames` | media_lib.py:28 | A name is kept exactly when some entry with that name is a regular file with an allowed suffix. |
| `Catalog.SortByKey` | media_lib.py:29 | The sort returns a permutation of its input, nondecreasing by `name.lower()` over all pairs. |
| `Catalog.InsertSorted` | media_lib.py:29 | One insertion step keeps the order sorted by `name.lower()`. |
| `Catalog.SortStable` | media_lib.py:29 | The sort is stable: names that are equal after lower-casing keep their iteration order. |
| `Catalog.ListNames` | media_lib.py:24-29 | A missing directory gives `[]`. A path that is not a directory, or cannot be read, raises. A readable directory gives its allowed names, sorted, as a permutation. |
| `Catalog.ListCommonItems` | media_lib.py:23-30 | A listing of `MEDIA_ROOT/common`: missing gives `[]`, an unreadable directory raises. Otherwise the allowed files, sorted, as a permutation, each tagged `("common", None, name)`. |
| `Catalog.ListTvItems` | media_lib.py:33-40 | The same listing for `MEDIA_ROOT/tv_<id>`, each item tagged `("tv", id, name)`. |
| `Catalog.PlainNameServed` | media_lib.py:49-68 | A plain file name in a valid scope resolves to the file right inside the base and is served, unless the base is `/`. |
| `Catalog.ListedItemsServed` | media_lib.py:28-30 | For a valid scope and a base other than `/`, every item the listing of the scope's base shows is served by the sandbox for its own scope and tv id. |
| `Catalog.CommonItemsServed` | media_lib.py:23-30 | Every item `list_common_items` shows is served from `MEDIA_ROOT/common`. |
| `Catalog.TvItemsServed` | media_lib.py:33-40 | Every item `list_tv_items` shows is served from `MEDIA_ROOT/tv_<id>`, with two exceptions. For the empty id, the sandbox answers `TvIdRequired`. For a tv id whose base resolves to `/`, it answers `Forbidden`. |
| `Catalog.CommonListingExample` | media_lib.py:23-30 | `common` holding `b.mp4`, `a.mp4` and `note.txt` lists `a.mp4`, then `b.mp4`. |
| `Playlist.BuildM3u` | media_lib.py:43-46 | The playlist is longer than the header and ends with a newline. |
| `Playlist.BuildM3uLines` | media_lib.py:43-46 | The playlist is `#EXTM3U`, then a newline and the URL for each URL in input order, then a final newline. |
| `Playlist.BuildM3uEmpty` | media_lib.py:43-46 | No URLs give `"#EXTM3U\n"`. |
| `Playlist.BuildM3uTwo` | media_lib.py:43-46 | Two URLs `a` and `b` give `"#EXTM3U\n" + a + "\n" + b + "\n"`. |
| `Playlist.BuildM3uAppend` | media_lib.py:45-46 | One more URL adds exactly one more line at the end. |
| `Playlist.BuildM3uRoundTrip` | media_lib.py:43-46 | When no URL contains a newline, splitting the playlist without its final newline on `"\n"` gives back `["#EXTM3U"] + urls`. |
| `Strings.SplitJoin` | media_lib.py:46 | `"\n".join` is undone by `split("\n")` when no part contains the separator. |
| `Strings.JoinSplit` | media_lib.py:46 | `split` is undone by `join`, for every string. |
| `Strings.LastIndexOf` | media_lib.py:20 | `str.rfind`: `-1` when the character is absent, otherwise a position holding it with no later position holding it. |
| `Strings.LowerPointwise` | media_lib.py:29 | `str.lower()` lowers each character on its own and keeps the length. |
| `Strings.LowerIdempotent` | media_lib.py:29 | Lowering a lowered name changes nothing, so the sort key of a key is the key itself. |
| `Strings.LexLeReflexive` | media_lib.py:29 | Every string is at most itself under Python string comparison. |
| `Strings.LexLeTotal` | media_lib.py:29 | Python string comparison is total, so the sort key orders every pair. |
| `Strings.LexLeTransitive` | media_lib.py:29 | Python string comparison is transitive. |

## Behaviour worth knowing

- The docstring of `safe_resolve_media_path` (media_lib.py:50-52) names
  `../../something` as the attack it guards against. The guard compares
  resolved paths, not the text of the filename. So `../tv_1/a.mp4` under tv
  id `1` climbs out and back in, and is accepted
  (`Sandbox.ClimbBackIntoBaseAccepted`). Only filenames that end up outside
  the base are rejected (`Sandbox.ClimbOutForbidden`).
- `list_tv_items` does not check its tv id. `""` lists `MEDIA_ROOT/tv_`,
  while the sandbox rejects the same id (`Catalog.TvItemsServed`).
- A tv id may contain `/` and `..`, which can move the base anywhere
  (`Sandbox.TvIdWithSeparatorLeavesRoot`). The "stays under `MEDIA_ROOT`"
  guarantee is therefore stated only for tv ids without a separator.
- A base that resolves to `/` accepts only `/` itself, because
  `str(base) + "/"` is `//`. This can only happen through such a tv id.

## Left out

- Symbolic links: resolution is lexical, as `os.path.realpath` behaves on a
  tree without links. A link inside the root that points outside is not
  modelled.
- `MEDIA_ROOT` is required to be absolute. The configuration builds it from
  `Path(__file__).resolve()`, and a relative root would be resolved against
  the working directory, which is not modelled.
- `Sandbox.SafeResolveMediaPath`: a filename or tv id holding a NUL character
  is not singled out. In the source, `resolve()` (media_lib.py:64-65) walks
  the path with `os.lstat`, which raises `ValueError` ("embedded null
  byte"). Neither `os.path.realpath` nor `Path.resolve` catches it, so
  the call raises, and server.py:57-58 answers 400. The model resolves the
  name lexically instead: `a\0b` in the common scope gives
  `Ok(RootDir(root) + ["common", "a\0b"])`, which `Catalog.PlainNameServed`
  also states. Listed names come from the file system and never hold NUL.
  `Path.exists()` reports such a path as missing (Python 3.8 and later).
- File names that are not valid UTF-8. Python holds their undecodable bytes
  as lone surrogates, which a Dafny `string` cannot represent. The model
  covers the names that decode.
- `str.lower()` beyond ASCII. Non-ASCII letters are left unchanged. This
  affects both the sort order and which files are listed. Python lowers
  KELVIN SIGN (U+212A) to ASCII `k`, so `x.M\u212aV` has suffix `.mkv`
  after `lower()`, and the source lists it. `Catalog.IsAllowedVideo`
  rejects it.
- `Path.suffix` follows the rule of Python up to 3.13. Later versions treat
  names that end in a dot differently.
- `exists()` and `is_file()` are read from one snapshot. Races with a
  changing directory and iteration order are given by the snapshot. `stat`
  errors other than "missing" are folded into the two `iterdir` errors.
  The lemmas tying listings to the sandbox take every directory entry to be
  a single segment (`Catalog.PlainSnapshot`). `iterdir()` skips `.` and
  `..`, and a POSIX name never holds `/` or NUL.
- `Catalog.ListTvItems`: looks the directory up at its lexically resolved
  path. The source hands the unresolved `MEDIA_ROOT / f"tv_{tv_id}"` to the
  operating system, which walks a `..` only after each earlier component
  exists as a directory. For a tv id holding `/` and `..` the two can
  differ: with no `tv_9`, `list_tv_items("9/../common")` returns `[]`,
  while the model lists the files of `common`, tagged as tv items. For a tv
  id without a separator, and for `Catalog.ListCommonItems`, the path holds
  no `..` and both name the same directory.
- `server.py` is not part of this model. That covers routing, the HTTP
  status mapping, the URL construction that feeds `build_m3u`, and server
  start-up.
- `Catalog.ListNames`, `Catalog.ListCommonItems`, `Catalog.ListTvItems`:
  they promise a sorted permutation of the allowed names. Stability, which
  fixes the exact order among names equal after lower-casing, is proved
  separately by `Catalog.SortStable` on the sort itself.
- `Catalog.PlainNameServed`: requires a base other than `/`, because that
  base serves nothing but itself.
- `Sandbox.SafeResolveMediaPath`: promises a result strictly below the root
  only when, in the tv scope, the tv id holds no separator, because the
  source does not sanitise tv ids (`Sandbox.TvIdWithSeparatorLeavesRoot`).
  The common scope ignores the tv id and needs no such condition.

=== FILE: catalog.dfy ===
/** The media catalog: which files of a collection directory are offered,
    in which order, and how they are tagged (`MediaItem`, `_is_allowed_video`,
    `list_common_items`, `list_tv_items`). */
module Catalog {
  import opened Results
  import opened Strings
  import opened Paths
  import opened Sandbox

  /** One playable file of a collection; `tvId` is `None` for `common`. */
  datatype MediaItem = MediaItem(scope: string, tvId: Option<string>, filename: string)

  /** One entry yielded by `iterdir()`: its name and whether `is_file()`
      holds for it. */
  datatype Entry = Entry(name: string, isFile: bool)

  /** What a resolved path names in the filesystem. */
  datatype Node =
    | Directory(entries: seq<Entry>)  // entries in iteration order
    | NotADirectory                   // exists, but `iterdir()` fails
    | Unreadable                      // a directory `iterdir()` may not open

  /** A snapshot of the filesystem, by resolved absolute path; a path that is
      not a key does not exist. */
  type Snapshot = map<seq<Segment>, Node>

  /** The `OSError`s `iterdir()` raises, which the listings let through. */
  datatype ListError = NotADirectoryError | PermissionDenied

  /** `ALLOWED_EXTENSIONS` as configured. */
  const AllowedExtensions: set<string> := {".mp4", ".mkv", ".avi", ".mov", ".webm", ".m4v"}

  /** A directory yields names that are single path segments. */
  predicate PlainEntries(entries: seq<Entry>) {
    forall i :: 0 <= i < |entries| ==> PlainSegment(entries[i].name)
  }

  /** Every directory of the snapshot yields names that are single path
      segments, as `iterdir()` does. */
  predicate PlainSnapshot(fs: Snapshot) {
    forall d :: d in fs && fs[d].Directory? ==> PlainEntries(fs[d].entries)
  }

  /** `Path.suffix`: from the last dot of the name, provided that dot is
      neither the first nor the last character; otherwise empty. */
  function Suffix(name: string): (r: string)
    ensures r == "" <==> (|name| == 0 || '.' !in name[1..] || name[|name| - 1] == '.')
    ensures r != "" ==> 2 <= |r| < |name| && r[0] == '.' && '.' !in r[1..] && name[|name| - |r|..] == r
  {
    var i := LastIndexOf(name, '.');
    LastDotCases(name, i);
    if 0 < i < |name| - 1 then name[i..] else ""
  }

  /** What the position of the last dot says about the name. */
  lemma LastDotCases(name: string, i: int)
    requires i == LastIndexOf(name, '.')
    ensures 0 < i < |name| - 1 ==>
      '.' in name[1..] && name[|name| - 1] != '.' && name[i..][1..] == name[i + 1..] && '.' !in name[i + 1..]
    ensures !(0 < i < |name| - 1) ==> |name| == 0 || '.' !in name[1..] || name[|name| - 1] == '.'
  {
    if 0 < i < |name| - 1 {
      assert name[1..][i - 1] == name[i];
      assert forall j :: i + 1 <= j < |name| ==> name[i + 1..][j - i - 1] == name[j];
    } else if i <= 0 && |name| > 0 {
      assert forall j :: 0 <= j < |name[1..]| ==> name[1..][j] == name[j + 1];
    }
  }

  /** A dot that is neither first nor last, with no dot after it, starts the
      suffix. */
  lemma SuffixAt(name: string, k: int)
    requires 0 < k < |name| - 1 && name[k] == '.' && '.' !in name[k + 1..]
    ensures Suffix(name) == name[k..]
  {
    assert name[1..][k - 1] == '.';
    assert name[|name| - 1] == name[k + 1..][|name| - k - 2];
    var r := Suffix(name);
    var n := |r|;
    assert r == name[|name| - n..];
    assert forall j :: |name| - n < j < |name| ==> name[j] == r[1..][j - (|name| - n) - 1];
    assert forall j :: k < j < |name| ==> name[j] == name[k + 1..][j - k - 1];
    assert name[|name| - n] == '.';
    assert |name| - n == k;
  }

  /** `_is_allowed_video`: a regular file whose lower-cased suffix is
      allowed. When the empty suffix is not allowed, that is a regular file
      with a dot, neither first nor last and with no dot after it, from which
      the lower-cased tail is an allowed extension. */
  function IsAllowedVideo(e: Entry, allowed: set<string>): (b: bool)
    ensures b ==> e.isFile
    ensures "" !in allowed ==>
      (b <==> e.isFile && exists k :: 0 < k < |e.name| - 1 && e.name[k] == '.' && '.' !in e.name[k + 1..] && Lower(e.name[k..]) in allowed)
  {
    SuffixDot(e.name);
    e.isFile && Lower(Suffix(e.name)) in allowed
  }

  /** The suffix is non-empty exactly when some dot, neither first nor last,
      has no dot after it, and it then starts at that dot. */
  lemma SuffixDot(name: string)
    ensures Suffix(name) != "" ==> name[|name| - |Suffix(name)|] == '.'
    ensures forall k :: 0 < k < |name| - 1 && name[k] == '.' && '.' !in name[k + 1..] ==> Suffix(name) == name[k..]
  {
    forall k | 0 < k < |name| - 1 && name[k] == '.' && '.' !in name[k + 1..]
      ensures Suffix(name) == name[k..]
    {
      SuffixAt(name, k);
    }
  }

  /** The names of the allowed entries, in iteration order. */
  function EligibleNames(entries: seq<Entry>, allowed: set<string>): (r: seq<string>)
    ensures |r| <= |entries|
    ensures forall i :: 0 <= i < |entries| && IsAllowedVideo(entries[i], allowed) ==> entries[i].name in r
    ensures forall n :: n in r ==> exists i :: 0 <= i < |entries| && IsAllowedVideo(entries[i], allowed) && entries[i].name == n
  {
    if |entries| == 0 then []
    else
      var rest := EligibleNames(entries[1..], allowed);
      assert forall i :: 1 <= i < |entries| ==> entries[1..][i - 1] == entries[i];
      if IsAllowedVideo(entries[0], allowed) then [entries[0].name] + rest else rest
  }

  /** Python's `a.lower() <= b.lower()`. */
  predicate KeyLe(a: string, b: string) {
    LexLe(Lower(a), Lower(b))
  }

  /** Nondecreasing by the sort key, over all pairs. */
  predicate SortedByKey(s: seq<string>) {
    forall i, j :: 0 <= i < j < |s| ==> KeyLe(s[i], s[j])
  }

  /** Inserts `x` in front of the first element whose key is not smaller. */
  function InsertByKey(x: string, s: seq<string>): (r: seq<string>)
    ensures multiset(r) == multiset(s) + multiset{x}
  {
    if |s| == 0 || KeyLe(x, s[0]) then [x] + s
    else
      assert s == [s[0]] + s[1..];
      [s[0]] + InsertByKey(x, s[1..])
  }

  /** `list.sort(key=str.lower)` on names: an insertion sort, stable like
      Python's. */
  function SortByKey(s: seq<string>): (r: seq<string>)
    ensures multiset(r) == multiset(s)
    ensures SortedByKey(r)
  {
    if |s| == 0 then []
    else
      var t := SortByKey(s[1..]);
      InsertSorted(s[0], t);
      assert s == [s[0]] + s[1..];
      InsertByKey(s[0], t)
  }

  lemma {:induction false} InsertSorted(x: string, s: seq<string>)
    requires SortedByKey(s)
    ensures SortedByKey(InsertByKey(x, s))
    decreases |s|
  {
    if |s| > 0 {
      if KeyLe(x, s[0]) {
        var r := [x] + s;
        forall i, j | 0 <= i < j < |r| ensures KeyLe(r[i], r[j]) {
          if i == 0 && j > 1 {
            LexLeTransitive(Lower(x), Lower(s[0]), Lower(s[j - 1]));
          }
        }
      } else {
        LexLeTotal(Lower(x), Lower(s[0]));
        InsertSorted(x, s[1..]);
        var t := InsertByKey(x, s[1..]);
        var r := [s[0]] + t;
        forall i, j | 0 <= i < j < |r| ensures KeyLe(r[i], r[j]) {
          if i == 0 {
            assert r[j] in multiset(t);
            if r[j] != x {
              assert r[j] in multiset(s[1..]);
              var k :| 0 <= k < |s[1..]| && s[1..][k] == r[j];
              assert s[k + 1] == r[j];
            }
          } else {
            assert r[i] == t[i - 1] && r[j] == t[j - 1];
          }
        }
      }
    }
  }

  /** The names with a given lower-cased key, in order. */
  function WithKey(s: seq<string>, k: string): (r: seq<string>)
    ensures forall i :: 0 <= i < |r| ==> Lower(r[i]) == k
  {
    if |s| == 0 then []
    else if Lower(s[0]) == k then [s[0]] + WithKey(s[1..], k)
    else WithKey(s[1..], k)
  }

  lemma {:induction false} InsertStable(x: string, s: seq<string>, k: string)
    ensures WithKey(InsertByKey(x, s), k) == (if Lower(x) == k then [x] else []) + WithKey(s, k)
    decreases |s|
  {
    var front: seq<string> := if Lower(x) == k then [x] else [];
    if |s| > 0 && !KeyLe(x, s[0]) {
      var t := InsertByKey(x, s[1..]);
      var r := [s[0]] + t;
      assert r[1..] == t;
      InsertStable(x, s[1..], k);
      var head: seq<string> := if Lower(s[0]) == k then [s[0]] else [];
      if Lower(s[0]) == k {
        LexLeReflexive(k);
      }
      assert WithKey(r, k) == head + WithKey(t, k);
      assert WithKey(s, k) == head + WithKey(s[1..], k);
      SwapFronts(head, front, WithKey(s[1..], k));
    } else {
      var r := [x] + s;
      assert r[1..] == s;
      SwapFronts([], front, WithKey(s, k));
    }
  }

  /** Two fronts of which at most one is non-empty can be put down in either
      order. */
  lemma SwapFronts(a: seq<string>, b: seq<string>, w: seq<string>)
    requires a == [] || b == []
    ensures a + (b + w) == b + (a + w)
    ensures a == [] ==> a + w == w
  {
  }

  /** The sort is stable: names with equal keys keep their iteration
      order. */
  lemma {:induction false} SortStable(s: seq<string>, k: string)
    ensures WithKey(SortByKey(s), k) == WithKey(s, k)
    decreases |s|
  {
    if |s| > 0 {
      SortStable(s[1..], k);
      InsertStable(s[0], SortByKey(s[1..]), k);
    }
  }

  /** The names a listing shows: the allowed entries, sorted. */
  function ListNames(fs: Snapshot, dir: seq<Segment>, allowed: set<string>): (r: Result<seq<string>, ListError>)
    ensures dir !in fs ==> r == Ok([])
    ensures dir in fs && fs[dir] == NotADirectory ==> r == Err(NotADirectoryError)
    ensures dir in fs && fs[dir] == Unreadable ==> r == Err(PermissionDenied)
    ensures dir in fs && fs[dir].Directory? ==>
      r.Ok? && SortedByKey(r.value) && multiset(r.value) == multiset(EligibleNames(fs[dir].entries, allowed))
  {
    if dir !in fs then Ok([])
    else match fs[dir]
      case NotADirectory => Err(NotADirectoryError)
      case Unreadable => Err(PermissionDenied)
      case Directory(entries) => Ok(SortByKey(EligibleNames(entries, allowed)))
  }

  /** Wraps names as items of one scope. */
  function Tag(scope: string, tvId: Option<string>, names: seq<string>): (items: seq<MediaItem>)
    ensures |items| == |names|
    ensures forall i :: 0 <= i < |items| ==> items[i] == MediaItem(scope, tvId, names[i])
  {
    seq(|names|, i requires 0 <= i < |names| => MediaItem(scope, tvId, names[i]))
  }

  /** The file names of items. */
  function Filenames(items: seq<MediaItem>): (names: seq<string>)
    ensures |names| == |items|
    ensures forall i :: 0 <= i < |items| ==> names[i] == items[i].filename
  {
    seq(|items|, i requires 0 <= i < |items| => items[i].filename)
  }

  /** A listing over `dir`: empty when `dir` does not exist, the `iterdir`
      error when it cannot be read, and otherwise the allowed files sorted by
      their lower-cased names, tagged. */
  predicate IsListing(fs: Snapshot, dir: seq<Segment>, allowed: set<string>,
                      scope: string, tvId: Option<string>, r: Result<seq<MediaItem>, ListError>) {
    && (dir !in fs ==> r == Ok([]))
    && (dir in fs && fs[dir] == NotADirectory ==> r == Err(NotADirectoryError))
    && (dir in fs && fs[dir] == Unreadable ==> r == Err(PermissionDenied))
    && (dir in fs && fs[dir].Directory? ==>
          && r.Ok?
          && (forall i :: 0 <= i < |r.value| ==> r.value[i].scope == scope && r.value[i].tvId == tvId)
          && SortedByKey(Filenames(r.value))
          && multiset(Filenames(r.value)) == multiset(EligibleNames(fs[dir].entries, allowed)))
  }

  function ListIn(fs: Snapshot, dir: seq<Segment>, allowed: set<string>, scope: string, tvId: Option<string>)
    : (r: Result<seq<MediaItem>, ListError>)
    ensures IsListing(fs, dir, allowed, scope, tvId, r)
  {
    match ListNames(fs, dir, allowed)
    case Err(e) => Err(e)
    case Ok(names) =>
      var items := Tag(scope, tvId, names);
      assert Filenames(items) == names;
      Ok(items)
  }

  /** `list_common_items`: the listing of `MEDIA_ROOT/common`. */
  function ListCommonItems(fs: Snapshot, root: string, allowed: set<string>): (r: Result<seq<MediaItem>, ListError>)
    ensures IsListing(fs, BaseDir(root, "common", None), allowed, "common", None, r)
  {
    ListIn(fs, BaseDir(root, "common", None), allowed, "common", None)
  }

  /** `list_tv_items`: the listing of `MEDIA_ROOT/tv_<id>`; the id is not
      checked, so `""` lists `MEDIA_ROOT/tv_`. */
  function ListTvItems(fs: Snapshot, root: string, tvId: string, allowed: set<string>): (r: Result<seq<MediaItem>, ListError>)
    ensures IsListing(fs, BaseDir(root, "tv", Some(tvId)), allowed, "tv", Some(tvId), r)
  {
    ListIn(fs, BaseDir(root, "tv", Some(tvId)), allowed, "tv", Some(tvId))
  }

  /** The suffix of `stem.ext` is `.ext` when `ext` has no dot, whatever dots
      the stem holds. */
  lemma SuffixOfExtension(stem: string, ext: string)
    requires stem != "" && ext != "" && '.' !in ext
    ensures Suffix(stem + "." + ext) == "." + ext
  {
    var name := stem + "." + ext;
    assert name[|stem|] == '.';
    assert name[|stem| + 1..] == ext;
    assert name[|stem|..] == "." + ext;
    SuffixAt(name, |stem|);
  }

  /** A name whose only dot is the leading one, such as `.mp4`, has no
      suffix. */
  lemma HiddenNameHasNoSuffix(ext: string)
    requires '.' !in ext
    ensures Suffix("." + ext) == ""
  {
    assert ("." + ext)[1..] == ext;
  }

  lemma {:induction false} LowerAppend(a: string, b: string)
    ensures Lower(a + b) == Lower(a) + Lower(b)
    decreases |a|
  {
    if |a| > 0 {
      LowerAppend(a[1..], b);
      assert (a + b)[0] == a[0];
      assert (a + b)[1..] == a[1..] + b;
    } else {
      assert a + b == b;
    }
  }

  /** A regular file `stem.ext` is allowed exactly when `.ext`, lower-cased,
      is an allowed extension; directories never are. */
  lemma AllowedVideoByExtension(stem: string, ext: string, isFile: bool, allowed: set<string>)
    requires stem != "" && ext != "" && '.' !in ext
    ensures IsAllowedVideo(Entry(stem + "." + ext, isFile), allowed) <==> isFile && "." + Lower(ext) in allowed
  {
    SuffixOfExtension(stem, ext);
    LowerAppend(".", ext);
  }

  /** Any plain name in a valid scope resolves to a file right inside the
      scope's base and is served, unless that base is `/` itself. */
  lemma PlainNameServed(root: string, scope: string, tvId: Option<string>, name: Segment)
    requires AbsoluteRoot(root) && ValidRequest(scope, tvId) && PlainSegment(name)
    requires BaseDir(root, scope, tvId) != []
    ensures SafeResolveMediaPath(root, scope, tvId, name) == Ok(BaseDir(root, scope, tvId) + [name])
  {
    var base := BaseDir(root, scope, tvId);
    ParsePlain(name);
    assert Canonical([name]) by {
      assert [name][0] == name;
    }
    NormalizePlain(base, [name]);
    assert Candidate(root, scope, tvId, name) == base + [name];
    assert base < base + [name];
  }

  /** Allowed names come from the directory's entries. */
  lemma EligibleNamePlain(entries: seq<Entry>, allowed: set<string>, n: string)
    requires PlainEntries(entries) && n in multiset(EligibleNames(entries, allowed))
    ensures PlainSegment(n)
  {
    assert n in EligibleNames(entries, allowed);
    var j :| 0 <= j < |entries| && IsAllowedVideo(entries[j], allowed) && entries[j].name == n;
  }

  /** Listed items carry their scope and a plain file name. */
  lemma ListedNamePlain(fs: Snapshot, dir: seq<Segment>, allowed: set<string>, scope: string, tvId: Option<string>, i: nat)
    requires dir in fs && fs[dir].Directory? && PlainEntries(fs[dir].entries)
    requires var r := ListIn(fs, dir, allowed, scope, tvId); r.Ok? && i < |r.value|
    ensures var item := ListIn(fs, dir, allowed, scope, tvId).value[i];
      item.scope == scope && item.tvId == tvId && PlainSegment(item.filename)
  {
    var items := ListIn(fs, dir, allowed, scope, tvId).value;
    var names := Filenames(items);
    assert names[i] in multiset(names);
    EligibleNamePlain(fs[dir].entries, allowed, names[i]);
  }

  /** Every file a listing shows is one the sandbox serves for the same
      scope: the catalog never advertises a file the player cannot fetch. */
  lemma ListedItemsServed(fs: Snapshot, root: string, scope: string, tvId: Option<string>, allowed: set<string>, i: nat)
    requires AbsoluteRoot(root) && ValidRequest(scope, tvId)
    requires BaseDir(root, scope, tvId) != [] && PlainSnapshot(fs)
    requires var r := ListIn(fs, BaseDir(root, scope, tvId), allowed, scope, tvId); r.Ok? && i < |r.value|
    ensures var item := ListIn(fs, BaseDir(root, scope, tvId), allowed, scope, tvId).value[i];
      SafeResolveMediaPath(root, item.scope, item.tvId, item.filename) == Ok(BaseDir(root, scope, tvId) + [item.filename])
  {
    var dir := BaseDir(root, scope, tvId);
    assert dir in fs && fs[dir].Directory?;
    ListedNamePlain(fs, dir, allowed, scope, tvId, i);
    PlainNameServed(root, scope, tvId, ListIn(fs, dir, allowed, scope, tvId).value[i].filename);
  }

  /** Every item `list_common_items` shows is served from `MEDIA_ROOT/common`. */
  lemma CommonItemsServed(fs: Snapshot, root: string, allowed: set<string>, i: nat)
    requires AbsoluteRoot(root) && PlainSnapshot(fs)
    requires var r := ListCommonItems(fs, root, allowed); r.Ok? && i < |r.value|
    ensures var item := ListCommonItems(fs, root, allowed).value[i];
      SafeResolveMediaPath(root, item.scope, item.tvId, item.filename) == Ok(BaseDir(root, "common", None) + [item.filename])
  {
    ListedItemsServed(fs, root, "common", None, allowed, i);
  }

  /** Every item `list_tv_items` shows is served from `MEDIA_ROOT/tv_<id>`,
      with two exceptions: the empty id, which the listing accepts but the
      sandbox refuses as missing, and a tv id whose base resolves to `/`,
      which admits only itself. */
  lemma TvItemsServed(fs: Snapshot, root: string, tvId: string, allowed: set<string>, i: nat)
    requires AbsoluteRoot(root) && PlainSnapshot(fs)
    requires var r := ListTvItems(fs, root, tvId, allowed); r.Ok? && i < |r.value|
    ensures var item := ListTvItems(fs, root, tvId, allowed).value[i];
      var served := SafeResolveMediaPath(root, item.scope, item.tvId, item.filename);
      && (tvId == "" ==> served == Err(TvIdRequired))
      && (tvId != "" && BaseDir(root, "tv", Some(tvId)) == [] ==> served == Err(Forbidden))
      && (tvId != "" && BaseDir(root, "tv", Some(tvId)) != [] ==> served == Ok(BaseDir(root, "tv", Some(tvId)) + [item.filename]))
  {
    var dir := BaseDir(root, "tv", Some(tvId));
    assert dir in fs && fs[dir].Directory?;
    ListedNamePlain(fs, dir, allowed, "tv", Some(tvId), i);
    if tvId != "" {
      if dir == [] {
        var name := ListIn(fs, dir, allowed, "tv", Some(tvId)).value[i].filename;
        ParsePlain(name);
        assert Canonical([name]) by {
          assert [name][0] == name;
        }
        NormalizePlain([], [name]);
      } else {
        ListedItemsServed(fs, root, "tv", Some(tvId), allowed, i);
      }
    }
  }

  lemma Mp4Allowed()
    ensures "." + Lower("mp4") in AllowedExtensions
  {
    assert "." + Lower("mp4") == ".mp4";
  }

  lemma TxtNotAllowed()
    ensures "." + Lower("txt") !in AllowedExtensions
  {
    assert "." + Lower("txt") == ".txt";
  }

  /** `b.mp4` sorts after `a.mp4`. */
  lemma ExampleSorted(a: string, b: string)
    requires a == "a" + "." + "mp4" && b == "b" + "." + "mp4"
    ensures SortByKey([b, a]) == [a, b]
  {
    assert !KeyLe(b, a);
  }

  /** `<stem>.mp4` is an allowed video. */
  lemma VideoExample(stem: string, x: string)
    requires stem != "" && '.' !in stem && x == stem + "." + "mp4"
    ensures IsAllowedVideo(Entry(x, true), AllowedExtensions)
  {
    AllowedVideoByExtension(stem, "mp4", true, AllowedExtensions);
    Mp4Allowed();
  }

  /** `note.txt` is not. */
  lemma TextExample(x: string)
    requires x == "note" + "." + "txt"
    ensures !IsAllowedVideo(Entry(x, true), AllowedExtensions)
  {
    AllowedVideoByExtension("note", "txt", true, AllowedExtensions);
    TxtNotAllowed();
  }

  lemma ExampleEligible(a: string, b: string, note: string)
    requires a == "a" + "." + "mp4" && b == "b" + "." + "mp4" && note == "note" + "." + "txt"
    ensures EligibleNames([Entry(b, true), Entry(a, true), Entry(note, true)], AllowedExtensions) == [b, a]
  {
    VideoExample("b", b);
    VideoExample("a", a);
    TextExample(note);
    ThreeEntries(Entry(b, true), Entry(a, true), Entry(note, true), AllowedExtensions);
  }

  /** Two allowed entries followed by a rejected one keep their order. */
  lemma ThreeEntries(x: Entry, y: Entry, z: Entry, allowed: set<string>)
    requires IsAllowedVideo(x, allowed) && IsAllowedVideo(y, allowed) && !IsAllowedVideo(z, allowed)
    ensures EligibleNames([x, y, z], allowed) == [x.name, y.name]
  {
    assert [x, y, z][1..] == [y, z];
    assert [y, z][1..] == [z];
    assert [z][1..] == [];
    assert EligibleNames([z], allowed) == [];
    assert EligibleNames([y, z], allowed) == [y.name];
  }

  /** A `common` directory holding `b.mp4`, `a.mp4` and `note.txt`, in that
      iteration order, lists `a.mp4` then `b.mp4`: the text file is
      dropped and the videos are sorted. Each name is written as stem, dot
      and extension. */
  lemma CommonListingExample(fs: Snapshot, root: string, a: string, b: string, note: string)
    requires a == "a" + "." + "mp4" && b == "b" + "." + "mp4" && note == "note" + "." + "txt"
    requires fs == map[RootDir(root) + ["common"] := Directory([Entry(b, true), Entry(a, true), Entry(note, true)])]
    ensures ListCommonItems(fs, root, AllowedExtensions) == Ok([MediaItem("common", None, a), MediaItem("common", None, b)])
  {
    ExampleListing(fs, BaseDir(root, "common", None), a, b, note);
  }

  lemma ExampleListing(fs: Snapshot, dir: seq<Segment>, a: string, b: string, note: string)
    requires a == "a" + "." + "mp4" && b == "b" + "." + "mp4" && note == "note" + "." + "txt"
    requires fs == map[dir := Directory([Entry(b, true), Entry(a, true), Entry(note, true)])]
    ensures ListIn(fs, dir, AllowedExtensions, "common", None) == Ok([MediaItem("common", None, a), MediaItem("common", None, b)])
  {
    ExampleNames(fs, dir, a, b, note);
    TagTwo("common", None, a, b);
  }

  lemma TagTwo(scope: string, tvId: Option<string>, x: string, y: string)
    ensures Tag(scope, tvId, [x, y]) == [MediaItem(scope, tvId, x), MediaItem(scope, tvId, y)]
  {
    var items := Tag(scope, tvId, [x, y]);
    assert items[0] == MediaItem(scope, tvId, x);
    assert items[1] == MediaItem(scope, tvId, y);
  }

  lemma ExampleNames(fs: Snapshot, dir: seq<Segment>, a: string, b: string, note: string)
    requires a == "a" + "." + "mp4" && b == "b" + "." + "mp4" && note == "note" + "." + "txt"
    requires fs == map[dir := Directory([Entry(b, true), Entry(a, true), Entry(note, true)])]
    ensures ListNames(fs, dir, AllowedExtensions) == Ok([a, b])
  {
    ExampleEligible(a, b, note);
    ExampleSorted(a, b);
  }
}

=== FILE: paths.dfy ===
/** POSIX paths as `pathlib` treats them: a path string parses into
    segments, joining with an absolute right-hand side replaces the left,
    `Path.resolve()` normalises lexically, and `str(path)` renders the
    segments back with `/`. Symbolic links are not modelled, so resolution
    is purely lexical. */
module Paths {
  import opened Strings

  /** `os.sep`, fixed to the POSIX separator. */
  const Sep: char := '/'

  type Segment = string

  /** A segment that can survive resolution: not empty, not `.` or `..`,
      and free of the separator. */
  predicate PlainSegment(s: string) {
    s != "" && s != "." && s != ".." && Sep !in s
  }

  /** A resolved absolute path, as the sequence of its segments below `/`. */
  predicate Canonical(p: seq<Segment>) {
    forall i :: 0 <= i < |p| ==> PlainSegment(p[i])
  }

  predicate SepFree(parts: seq<string>) {
    forall i :: 0 <= i < |parts| ==> Sep !in parts[i]
  }

  /** A parsed but unresolved path: `..` segments are still present. */
  datatype PurePath = PurePath(absolute: bool, parts: seq<string>)

  /** Drops the empty and `.` pieces that `pathlib` discards when parsing. */
  function Clean(pieces: seq<string>): (r: seq<string>)
    ensures forall x :: x in r <==> x in pieces && x != "" && x != "."
    ensures forall i :: 0 <= i < |r| ==> r[i] != "" && r[i] != "."
  {
    if |pieces| == 0 then []
    else if pieces[0] == "" || pieces[0] == "." then Clean(pieces[1..])
    else [pieces[0]] + Clean(pieces[1..])
  }

  /** `PurePosixPath(s)`: a leading separator makes the path absolute,
      repeated separators and `.` segments vanish, `..` is kept. */
  function Parse(s: string): (p: PurePath)
    ensures p.absolute <==> StartsWith(s, [Sep])
    ensures SepFree(p.parts)
    ensures forall i :: 0 <= i < |p.parts| ==> p.parts[i] != "" && p.parts[i] != "."
  {
    var pieces := Split(s, Sep);
    assert forall x :: x in Clean(pieces) ==> Sep !in x;
    PurePath(|s| > 0 && s[0] == Sep, Clean(pieces))
  }

  /** `base / name` on an absolute base: an absolute `name` replaces the base. */
  function JoinPath(base: seq<string>, name: string): (r: seq<string>)
    requires SepFree(base)
    ensures SepFree(r)
  {
    var n := Parse(name);
    if n.absolute then n.parts else base + n.parts
  }

  /** Drops the last segment; `..` at `/` stays at `/`. */
  function Parent(p: seq<Segment>): (r: seq<Segment>)
    ensures p != [] ==> r < p && |r| == |p| - 1
    ensures p == [] ==> r == []
  {
    if p == [] then [] else p[..|p| - 1]
  }

  /** The segment walk of `os.path.realpath` on an absolute path without
      symbolic links: empty and `.` segments are skipped, `..` pops (never
      above `/`), anything else is appended. */
  function Normalize(acc: seq<Segment>, parts: seq<string>): (r: seq<Segment>)
    requires Canonical(acc)
    requires SepFree(parts)
    ensures Canonical(r)
    ensures |r| <= |acc| + |parts|
    decreases |parts|
  {
    if |parts| == 0 then acc
    else if parts[0] == "" || parts[0] == "." then Normalize(acc, parts[1..])
    else if parts[0] == ".." then Normalize(Parent(acc), parts[1..])
    else Normalize(acc + [parts[0]], parts[1..])
  }

  /** `Path.resolve()` of the absolute path with the given segments. */
  function Resolve(parts: seq<string>): (r: seq<Segment>)
    requires SepFree(parts)
    ensures Canonical(r)
    ensures |r| <= |parts|
    ensures Canonical(parts) ==> r == parts
  {
    if Canonical(parts) then NormalizePlain([], parts); Normalize([], parts)
    else Normalize([], parts)
  }

  /** Each segment preceded by the separator. */
  function Segs(p: seq<Segment>): string {
    if p == [] then "" else [Sep] + p[0] + Segs(p[1..])
  }

  /** `str(path)` of a resolved absolute path. */
  function Render(p: seq<Segment>): (r: string)
    ensures |r| >= 1 && r[0] == Sep
    ensures Canonical(p) ==> (r == [Sep] <==> p == [])
  {
    if p == [] then [Sep] else SegsShape(p); Segs(p)
  }

  /** The containment test of the sandbox, literally on the rendered
      strings: equal to the base, or starting with the base and a separator.
      On resolved paths it is the segment test `Within`; without the appended
      separator it would not be, see `SiblingSharesStringPrefix`. */
  function Contained(candidate: seq<Segment>, base: seq<Segment>): (b: bool)
    ensures candidate == base ==> b
    ensures Canonical(candidate) && Canonical(base) ==> (b <==> Within(candidate, base))
  {
    StringTestIsWithin(candidate, base);
    StartsWith(Render(candidate), Render(base) + [Sep]) || candidate == base
  }

  /** The same test on segments: the base itself or a path strictly below
      it. A base of `/` admits only itself, because its rendering followed by
      the separator is `//`, which no resolved path starts with. */
  predicate Within(candidate: seq<Segment>, base: seq<Segment>) {
    candidate == base || (base != [] && base < candidate)
  }

  lemma SegsShape(p: seq<Segment>)
    requires p != []
    ensures Segs(p) == [Sep] + (p[0] + Segs(p[1..]))
    ensures |Segs(p)| > |p[0]| && Segs(p)[0] == Sep
  {
  }

  lemma StartsWithPrepend(a: string, b: string, p: string)
    ensures StartsWith(p + a, p + b) <==> StartsWith(a, b)
  {
    if StartsWith(p + a, p + b) {
      assert a[..|b|] == (p + a)[|p|..|p| + |b|] == (p + b)[|p|..];
    }
    if StartsWith(a, b) {
      assert (p + a)[..|p + b|] == p + a[..|b|];
    }
  }

  /** Two separator-free pieces, each followed by text that is empty or
      begins with the separator, can only be compared piece to piece. */
  lemma PieceMatch(s: string, t: string, x: string, y: string)
    requires Sep !in s && Sep !in t
    requires |x| > 0 && x[0] == Sep
    requires y == [] || y[0] == Sep
    requires StartsWith(t + y, s + x)
    ensures s == t && StartsWith(y, x)
  {
    var u, v := t + y, s + x;
    assert u[..|v|] == v;
    forall k | 0 <= k < |t| ensures u[k] != Sep {
      assert u[k] == t[k] && t[k] in t;
    }
    forall k | 0 <= k < |s| ensures v[k] != Sep {
      assert v[k] == s[k] && s[k] in s;
    }
    assert u[|s|] == v[|s|] == Sep;
    assert |t| <= |s|;
    assert |y| > 0;
    assert v[|t|] == u[|t|] == y[0] == Sep;
    assert |s| == |t|;
    assert s == v[..|s|] == u[..|s|] == t;
    StartsWithPrepend(y, x, s);
  }

  /** On separator-free segments, the rendered string of `c` starts with the
      rendered base plus a separator exactly when the base is a proper prefix
      of `c` segment by segment. */
  lemma {:induction false} SeparatedPrefix(c: seq<Segment>, b: seq<Segment>)
    requires Canonical(c) && Canonical(b)
    requires b != []
    ensures StartsWith(Segs(c), Segs(b) + [Sep]) <==> b < c
    decreases |b|
  {
    var s, b' := b[0], b[1..];
    var rest := Segs(b') + [Sep];
    SegsShape(b);
    assert Segs(b) + [Sep] == [Sep] + (s + rest);
    if c != [] {
      var t, c' := c[0], c[1..];
      SegsShape(c);
      StartsWithPrepend(t + Segs(c'), s + rest, [Sep]);
      if c' != [] {
        SegsShape(c');
      }
      if b' != [] {
        SegsShape(b');
        SeparatedPrefix(c', b');
      }
      if StartsWith(t + Segs(c'), s + rest) {
        PieceMatch(s, t, rest, Segs(c'));
        assert b < c by {
          assert c == [t] + c' && b == [s] + b';
        }
      }
      if b < c {
        assert s == t;
        assert b' < c';
        StartsWithPrepend(Segs(c'), rest, s);
      }
    }
  }

  /** The string test of `Contained`, spelled out, agrees with the segment
      test on resolved paths. */
  lemma StringTestIsWithin(candidate: seq<Segment>, base: seq<Segment>)
    ensures Canonical(candidate) && Canonical(base) ==>
      (StartsWith(Render(candidate), Render(base) + [Sep]) || candidate == base <==> Within(candidate, base))
  {
    if !(Canonical(candidate) && Canonical(base)) {
    } else if base == [] {
      assert Render(base) + [Sep] == [Sep, Sep];
      if candidate != [] {
        SegsShape(candidate);
        var t := candidate[0];
        assert Render(candidate)[1] == (t + Segs(candidate[1..]))[0] == t[0];
        assert t[0] in t;
      }
    } else if candidate == [] {
      SegsShape(base);
    } else {
      SeparatedPrefix(candidate, base);
    }
  }

  /** Why the separator matters: base `/r/tv_1` and sibling `/r/tv_1x/a`
      share a string prefix, yet the sibling is rejected. */
  lemma SiblingSharesStringPrefix()
    ensures StartsWith(Render(["r", "tv_1x", "a"]), Render(["r", "tv_1"]))
    ensures !Contained(["r", "tv_1x", "a"], ["r", "tv_1"])
  {
    assert Render(["r", "tv_1x", "a"]) == "/r/tv_1x/a";
    assert Render(["r", "tv_1"]) == "/r/tv_1";
    assert "/r/tv_1x/a"[..8] == "/r/tv_1x" != "/r/tv_1/";
  }

  lemma {:induction false} CleanCanonical(p: seq<string>)
    requires forall i :: 0 <= i < |p| ==> p[i] != "" && p[i] != "."
    ensures Clean(p) == p
    decreases |p|
  {
    if p != [] {
      CleanCanonical(p[1..]);
      assert [p[0]] + p[1..] == p;
    }
  }

  /** A separator-free piece followed by rendered segments splits into the
      piece and those segments. */
  lemma {:induction false} SplitTail(s: Segment, p: seq<Segment>)
    requires Sep !in s && Canonical(p)
    ensures Split(s + Segs(p), Sep) == [s] + p
    decreases |p|
  {
    if p == [] {
      assert s + Segs(p) == s;
      SplitPiece(s, Sep);
    } else {
      var z := p[0] + Segs(p[1..]);
      SegsShape(p);
      assert s + Segs(p) == s + [Sep] + z;
      SplitAfterPiece(s, Sep, z);
      SplitTail(p[0], p[1..]);
      assert [p[0]] + p[1..] == p;
    }
  }

  lemma SplitSegs(p: seq<Segment>)
    requires Canonical(p) && p != []
    ensures Split(Segs(p), Sep) == [""] + p
  {
    SegsShape(p);
    assert Segs(p) == [] + Segs(p);
    SplitTail([], p);
  }

  /** Parsing the rendering of a resolved path gives it back, as an absolute path. */
  lemma ParseRender(p: seq<Segment>)
    requires Canonical(p)
    ensures Parse(Render(p)) == PurePath(true, p)
  {
    if p == [] {
      assert [Sep][1..] == [];
      assert Split([Sep], Sep) == ["", ""];
      assert Clean(["", ""]) == [];
    } else {
      SegsShape(p);
      SplitSegs(p);
      CleanCanonical(p);
    }
  }

  /** Plain segments are appended as they are. */
  lemma {:induction false} NormalizePlain(acc: seq<Segment>, p: seq<Segment>)
    requires Canonical(acc) && Canonical(p)
    ensures Normalize(acc, p) == acc + p
    decreases |p|
  {
    if p != [] {
      NormalizePlain(acc + [p[0]], p[1..]);
      assert acc + [p[0]] + p[1..] == acc + p;
    }
  }

  /** Resolving `a + b` is resolving `b` from where `a` led. */
  lemma {:induction false} NormalizeAppend(acc: seq<Segment>, a: seq<string>, b: seq<string>)
    requires Canonical(acc) && SepFree(a) && SepFree(b)
    ensures Normalize(acc, a + b) == Normalize(Normalize(acc, a), b)
    decreases |a|
  {
    if a == [] {
      assert a + b == b;
    } else {
      assert (a + b)[1..] == a[1..] + b;
      var next := if a[0] == "" || a[0] == "." then acc
                  else if a[0] == ".." then Parent(acc) else acc + [a[0]];
      NormalizeAppend(next, a[1..], b);
    }
  }

  /** Resolution is idempotent: resolving `str(p)` of a resolved `p` gives `p`. */
  lemma ResolveRendered(p: seq<Segment>)
    requires Canonical(p)
    ensures Parse(Render(p)).absolute
    ensures Resolve(Parse(Render(p)).parts) == p
  {
    ParseRender(p);
    NormalizePlain([], p);
  }

  /** `k` parent segments. */
  function Ups(k: nat): (r: seq<string>)
    ensures |r| == k && SepFree(r)
  {
    if k == 0 then [] else [".."] + Ups(k - 1)
  }

  /** `k` parent steps from a canonical path drop its last `k` segments,
      stopping at `/`. */
  lemma {:induction false} NormalizeParents(acc: seq<Segment>, k: nat)
    requires Canonical(acc)
    ensures Normalize(acc, Ups(k)) == acc[..if k <= |acc| then |acc| - k else 0]
    decreases k
  {
    if k > 0 {
      assert Ups(k)[1..] == Ups(k - 1);
      NormalizeParents(Parent(acc), k - 1);
    }
  }

  /** The walk never reaches a path below `pre` unless it appends `pre`'s
      last segment: popping keeps `pre` off the prefix, and an append can
      complete `pre` only with that segment. */
  lemma {:induction false} NormalizeAvoids(pre: seq<Segment>, acc: seq<Segment>, parts: seq<string>)
    requires Canonical(acc) && SepFree(parts)
    requires pre != [] && !(pre <= acc) && pre[|pre| - 1] !in parts
    ensures !(pre <= Normalize(acc, parts))
    decreases |parts|
  {
    if parts != [] {
      var x := parts[0];
      var tail := parts[1..];
      assert forall j :: 0 <= j < |tail| ==> tail[j] == parts[j + 1];
      if x == "" || x == "." {
        NormalizeAvoids(pre, acc, tail);
      } else if x == ".." {
        NormalizeAvoids(pre, Parent(acc), tail);
      } else {
        var next := acc + [x];
        NormalizeAvoids(pre, next, tail);
      }
    }
  }

  /** A single plain name parses to itself, as a relative path. */
  lemma ParsePlain(d: string)
    requires PlainSegment(d)
    ensures Parse(d) == PurePath(false, [d])
  {
    SplitPiece(d, Sep);
    assert [d][1..] == [];
    assert Clean([d]) == [d] + Clean([]);
    assert d[0] in d;
    assert !StartsWith(d, [Sep]);
  }

  lemma {:induction false} SegsAppend(a: seq<Segment>, b: seq<Segment>)
    ensures Segs(a + b) == Segs(a) + Segs(b)
    decreases |a|
  {
    if a == [] {
      assert a + b == b;
    } else {
      assert (a + b)[1..] == a[1..] + b;
      SegsAppend(a[1..], b);
    }
  }

  /** Segments written out with separators parse back to those segments. */
  lemma ParseJoined(parts: seq<string>)
    requires |parts| >= 1 && SepFree(parts)
    requires forall i :: 0 <= i < |parts| ==> parts[i] != "" && parts[i] != "."
    ensures Parse(Join(parts, Sep)) == PurePath(false, parts)
  {
    SplitJoin(parts, Sep);
    CleanCanonical(parts);
    JoinHead(parts);
    assert parts[0][0] in parts[0];
  }

  /** The same segments after a leading separator parse as an absolute path. */
  lemma ParseJoinedAbsolute(parts: seq<string>)
    requires |parts| >= 1 && SepFree(parts)
    requires forall i :: 0 <= i < |parts| ==> parts[i] != "" && parts[i] != "."
    ensures Parse([Sep] + Join(parts, Sep)) == PurePath(true, parts)
  {
    var s := Join(parts, Sep);
    ParseJoined(parts);
    assert Clean(Split(s, Sep)) == parts;
    SplitAfterPiece([], Sep, s);
    assert [Sep] + s == [] + [Sep] + s;
    var pieces := Split([Sep] + s, Sep);
    assert pieces[1..] == Split(s, Sep);
    assert Clean(pieces) == parts;
  }

  lemma JoinHead(parts: seq<string>)
    requires |parts| >= 1 && parts[0] != ""
    ensures |Join(parts, Sep)| > 0 && Join(parts, Sep)[0] == parts[0][0]
  {
  }
}

=== FILE: playlist.dfy ===
/** `build_m3u`: the plain M3U playlist handed to players. */
module Playlist {
  import opened Strings

  /** The marker on the first line of every playlist. */
  const Header: string := "#EXTM3U"

  const Newline: char := '\n'

  /** The header and the URLs joined by newlines, plus a final newline. */
  function BuildM3u(urls: seq<string>): (r: string)
    ensures |r| > |Header| && r[|r| - 1] == Newline
  {
    Join([Header] + urls, Newline) + [Newline]
  }

  /** Each URL as its own line: a newline, then the URL. */
  function UrlLines(urls: seq<string>): string {
    if |urls| == 0 then "" else [Newline] + urls[0] + UrlLines(urls[1..])
  }

  /** Joining a first line with the rest puts each later line behind a
      newline. */
  lemma {:induction false} JoinAsLines(first: string, urls: seq<string>)
    ensures Join([first] + urls, Newline) == first + UrlLines(urls)
    decreases |urls|
  {
    if |urls| == 0 {
      assert [first] + urls == [first];
    } else {
      var head, tail := urls[0], urls[1..];
      assert [head] + tail == urls;
      JoinCons(first, urls, Newline);
      JoinAsLines(head, tail);
      assert Join(urls, Newline) == head + UrlLines(tail);
      assert UrlLines(urls) == [Newline] + head + UrlLines(tail);
    }
  }

  /** The playlist is the header, then a newline and the URL for each URL in
      order, then a newline. */
  lemma BuildM3uLines(urls: seq<string>)
    ensures BuildM3u(urls) == Header + UrlLines(urls) + [Newline]
  {
    JoinAsLines(Header, urls);
  }

  /** No URLs: just the header line. */
  lemma BuildM3uEmpty()
    ensures BuildM3u([]) == "#EXTM3U\n"
  {
    BuildM3uLines([]);
  }

  /** Two URLs give three lines. */
  lemma BuildM3uTwo(a: string, b: string)
    ensures BuildM3u([a, b]) == "#EXTM3U" + [Newline] + a + [Newline] + b + [Newline]
  {
    BuildM3uLines([a, b]);
    assert [a, b][1..] == [b];
    assert [b][1..] == [];
    assert UrlLines([b]) == [Newline] + b;
    assert UrlLines([a, b]) == [Newline] + a + ([Newline] + b);
  }

  /** One more URL adds one more line at the end. */
  lemma BuildM3uAppend(urls: seq<string>, u: string)
    ensures BuildM3u(urls + [u]) == BuildM3u(urls) + u + [Newline]
  {
    BuildM3uLines(urls);
    BuildM3uLines(urls + [u]);
    UrlLinesAppend(urls, u);
  }

  lemma {:induction false} UrlLinesAppend(urls: seq<string>, u: string)
    ensures UrlLines(urls + [u]) == UrlLines(urls) + [Newline] + u
    decreases |urls|
  {
    if |urls| == 0 {
      assert urls + [u] == [u];
      assert [u][1..] == [];
    } else {
      UrlLinesAppend(urls[1..], u);
      assert (urls + [u])[1..] == urls[1..] + [u];
    }
  }

  /** When no URL contains a newline, splitting the playlist without its
      final newline on newlines gives back the header and the URLs. */
  lemma BuildM3uRoundTrip(urls: seq<string>)
    requires forall i :: 0 <= i < |urls| ==> Newline !in urls[i]
    ensures var r := BuildM3u(urls); Split(r[..|r| - 1], Newline) == [Header] + urls
  {
    var lines := [Header] + urls;
    assert Newline !in Header;
    assert forall i :: 1 <= i < |lines| ==> lines[i] == urls[i - 1];
    SplitJoin(lines, Newline);
    var r := BuildM3u(urls);
    assert r[..|r| - 1] == Join(lines, Newline);
  }
}

=== FILE: results.dfy ===
/** Failure-carrying values shared by the model: an optional Python value
    (`str | None`) becomes an Option, and a raised exception becomes the
    failure half of a Result. */
module Results {

  datatype Option<+T> = None | Some(value: T)

  datatype Result<+R, +E> = Ok(value: R) | Err(error: E)
}

=== FILE: sandbox.dfy ===
/** `safe_resolve_media_path`: turns an untrusted (scope, tv id, filename)
    request into a resolved path that stays inside the scope's resolved base
    directory, or fails. */
module Sandbox {
  import opened Results
  import opened Strings
  import opened Paths

  /** The exceptions raised: `InvalidScope` and `TvIdRequired` are both
      `ValueError`s in the source, `Forbidden` is its `PermissionError`. */
  datatype ResolveError = InvalidScope | TvIdRequired | Forbidden

  /** `MEDIA_ROOT` is an absolute path; the configuration builds it with
      `Path.resolve()`. */
  predicate AbsoluteRoot(root: string) {
    StartsWith(root, [Sep])
  }

  /** Python truthiness of `tv_id`: `None` and `""` are both false. */
  predicate HasTvId(tvId: Option<string>) {
    tvId.Some? && tvId.value != ""
  }

  /** The requests that get past the scope and tv id checks. */
  predicate ValidRequest(scope: string, tvId: Option<string>) {
    scope == "common" || (scope == "tv" && HasTvId(tvId))
  }

  /** The tv id, where it is used, holds no separator, so that `tv_<id>` is
      a single directory name. The common scope ignores the tv id. */
  predicate IdWithoutSeparator(scope: string, tvId: Option<string>) {
    scope == "tv" && tvId.Some? ==> Sep !in tvId.value
  }

  /** The scope's directory below the root is a single name: `common`, or
      `tv_<id>` for a tv id without a separator. The empty id counts, since
      the tv listing uses it as it is. */
  predicate NamesOneDirectory(scope: string, tvId: Option<string>) {
    scope == "common" || (scope == "tv" && tvId.Some? && Sep !in tvId.value)
  }

  /** The directory name of a scope below the root: `common` or `tv_<id>`. */
  function ScopeDirName(scope: string, tvId: Option<string>): string {
    if scope == "common" then "common"
    else "tv_" + (if tvId.Some? then tvId.value else "")
  }

  /** `MEDIA_ROOT / name`, not yet resolved. */
  function UnderRoot(root: string, name: string): (parts: seq<string>)
    ensures SepFree(parts)
  {
    JoinPath(Parse(root).parts, name)
  }

  /** The resolved root, `MEDIA_ROOT.resolve()`. */
  function RootDir(root: string): seq<Segment> {
    Resolve(Parse(root).parts)
  }

  /** The resolved base directory of a scope. For `common`, and for a tv
      id without a separator (the empty one included), it is the resolved
      root plus one directory. */
  function BaseDir(root: string, scope: string, tvId: Option<string>): (b: seq<Segment>)
    ensures Canonical(b)
    ensures NamesOneDirectory(scope, tvId) ==> b == RootDir(root) + [ScopeDirName(scope, tvId)]
  {
    var d := ScopeDirName(scope, tvId);
    PlainBelowRoot(root, d);
    if NamesOneDirectory(scope, tvId) then
      ScopeDirNamePlain(scope, tvId);
      Resolve(UnderRoot(root, d))
    else
      Resolve(UnderRoot(root, d))
  }

  /** A plain directory name below the root resolves to one more segment. */
  lemma PlainBelowRoot(root: string, d: string)
    ensures PlainSegment(d) ==> Resolve(UnderRoot(root, d)) == RootDir(root) + [d]
  {
    if PlainSegment(d) {
      ParsePlain(d);
      NormalizeAppend([], Parse(root).parts, [d]);
      NormalizePlain(RootDir(root), [d]);
    }
  }

  /** The resolved `base_dir / filename`: an absolute filename resolves on
      its own, a relative one is walked starting from the resolved base. */
  function Candidate(root: string, scope: string, tvId: Option<string>, filename: string): (c: seq<Segment>)
    ensures Canonical(c)
    ensures Parse(filename).absolute ==> c == Resolve(Parse(filename).parts)
    ensures !Parse(filename).absolute ==> c == Normalize(BaseDir(root, scope, tvId), Parse(filename).parts)
  {
    var base := BaseDir(root, scope, tvId);
    ResolveFromBase(base, filename);
    Resolve(JoinPath(base, filename))
  }

  /** Resolving a relative name below a resolved base continues the walk
      from the base. */
  lemma ResolveFromBase(base: seq<Segment>, filename: string)
    requires Canonical(base)
    ensures !Parse(filename).absolute ==> Resolve(JoinPath(base, filename)) == Normalize(base, Parse(filename).parts)
  {
    var n := Parse(filename);
    if !n.absolute {
      var parts := n.parts;
      assert SepFree(base);
      assert JoinPath(base, filename) == base + parts;
      assert Resolve(base + parts) == Normalize([], base + parts);
      NormalizeAppend([], base, parts);
      NormalizePlain([], base);
      assert Normalize([], base) == base;
    }
  }

  /** The scope is checked first, then the tv id; a valid request succeeds
      exactly when the resolved candidate is the resolved base or lies below
      it segment by segment, and then returns that candidate. Unless a tv id
      with a separator moved the base, what it returns lies strictly below
      the resolved root: the sandbox keeps requests under `MEDIA_ROOT`. */
  function SafeResolveMediaPath(root: string, scope: string, tvId: Option<string>, filename: string)
    : (r: Result<seq<Segment>, ResolveError>)
    requires AbsoluteRoot(root)
    ensures scope != "common" && scope != "tv" ==> r == Err(InvalidScope)
    ensures scope == "tv" && !HasTvId(tvId) ==> r == Err(TvIdRequired)
    ensures ValidRequest(scope, tvId) ==>
      (r.Ok? <==> Within(Candidate(root, scope, tvId, filename), BaseDir(root, scope, tvId)))
    ensures r.Ok? ==> r.value == Candidate(root, scope, tvId, filename)
    ensures ValidRequest(scope, tvId) && r.Err? ==> r.error == Forbidden
    ensures r.Ok? && IdWithoutSeparator(scope, tvId) ==> RootDir(root) < r.value
  {
    if scope != "common" && scope != "tv" then Err(InvalidScope)
    else if scope == "tv" && !HasTvId(tvId) then Err(TvIdRequired)
    else
      var base := BaseDir(root, scope, tvId);
      var candidate := Resolve(JoinPath(base, filename));
      if Contained(candidate, base) then Ok(candidate) else Err(Forbidden)
  }

  /** `common`, and `tv_<id>` for an id without a separator, are plain
      directory names. */
  lemma ScopeDirNamePlain(scope: string, tvId: Option<string>)
    requires NamesOneDirectory(scope, tvId)
    ensures PlainSegment(ScopeDirName(scope, tvId))
  {
    var d := ScopeDirName(scope, tvId);
    assert d[0] == if scope == "common" then 'c' else 't';
  }

  /** The guarantee is relative to the resolved base, not to the root: a tv
      id such as `x/../../../etc` under `/srv/media`, whose `..` segments climb
      past the root to a directory `top` outside it, moves the base there, and
      a file in it is accepted. */
  lemma TvIdWithSeparatorLeavesRoot(root: string, id: string, first: Segment, top: Segment, filename: Segment)
    requires AbsoluteRoot(root) && id != "" && RootDir(root) != []
    requires PlainSegment(first) && PlainSegment(top) && top !in RootDir(root) && PlainSegment(filename)
    requires Parse("tv_" + id) == PurePath(false, [first] + Ups(|RootDir(root)| + 1) + [top])
    ensures SafeResolveMediaPath(root, "tv", Some(id), filename) == Ok([top, filename])
    ensures !(RootDir(root) < [top, filename])
  {
    var r := RootDir(root);
    EscapingBase(root, id, first, top);
    ParsePlain(filename);
    NormalizePlain([top], [filename]);
    assert Candidate(root, "tv", Some(id), filename) == [top, filename];
    assert [top] < [top, filename];
    assert r[0] in r;
  }

  /** The base of such a tv id is the directory `top` right below `/`. */
  lemma EscapingBase(root: string, id: string, first: Segment, top: Segment)
    requires PlainSegment(first) && PlainSegment(top)
    requires Parse("tv_" + id) == PurePath(false, [first] + Ups(|RootDir(root)| + 1) + [top])
    ensures BaseDir(root, "tv", Some(id)) == [top]
  {
    var rootParts := Parse(root).parts;
    assert ScopeDirName("tv", Some(id)) == "tv_" + id;
    assert UnderRoot(root, "tv_" + id) == rootParts + ([first] + Ups(|RootDir(root)| + 1) + [top]);
    ClimbPastRoot(rootParts, first, top);
  }

  /** One plain directory, then one `..` more than the resolved root has
      segments, then `top`: the walk ends at `/top`. */
  lemma ClimbPastRoot(rootParts: seq<string>, first: Segment, top: Segment)
    requires SepFree(rootParts) && PlainSegment(first) && PlainSegment(top)
    ensures Resolve(rootParts + ([first] + Ups(|Resolve(rootParts)| + 1) + [top])) == [top]
  {
    var r := Resolve(rootParts);
    var ups := Ups(|r| + 1);
    NormalizeAppend([], rootParts, [first] + ups + [top]);
    NormalizeAppend(r, [first] + ups, [top]);
    NormalizeAppend(r, [first], ups);
    NormalizePlain(r, [first]);
    NormalizeParents(r + [first], |r| + 1);
    NormalizePlain([], [top]);
  }

  /** An empty filename resolves to the base itself and is accepted. */
  lemma EmptyFilenameIsBase(root: string, scope: string, tvId: Option<string>)
    requires AbsoluteRoot(root)
    requires ValidRequest(scope, tvId)
    ensures SafeResolveMediaPath(root, scope, tvId, "") == Ok(BaseDir(root, scope, tvId))
  {
    var base := BaseDir(root, scope, tvId);
    assert Split("", Sep) == [""];
    assert [""][1..] == [];
    assert Clean([""]) == [];
    assert Parse("").parts == [];
    assert JoinPath(base, "") == base;
    NormalizePlain([], base);
  }

  /** Resolution is idempotent: handing an accepted path back, as an absolute
      filename, is accepted again with the same result. */
  lemma ResolveIdempotent(root: string, scope: string, tvId: Option<string>, filename: string)
    requires AbsoluteRoot(root)
    requires SafeResolveMediaPath(root, scope, tvId, filename).Ok?
    ensures var c := SafeResolveMediaPath(root, scope, tvId, filename).value;
      SafeResolveMediaPath(root, scope, tvId, Render(c)) == Ok(c)
  {
    var c := SafeResolveMediaPath(root, scope, tvId, filename).value;
    ParseRender(c);
    NormalizePlain([], c);
    assert ValidRequest(scope, tvId);
    assert Candidate(root, scope, tvId, Render(c)) == c;
    assert Within(c, BaseDir(root, scope, tvId));
  }

  lemma EtcPasswdAbsolutePieces()
    ensures "/etc/passwd" == [Sep] + ("etc" + [Sep] + "passwd")
  {
  }

  /** `/etc/passwd` is rejected in every scope, whatever the media root, as
      long as a tv id holds no separator (one that climbs to `/etc` moves the
      base there). */
  lemma AbsoluteEtcPasswdForbidden(root: string, scope: string, tvId: Option<string>, filename: string)
    requires AbsoluteRoot(root) && ValidRequest(scope, tvId)
    requires IdWithoutSeparator(scope, tvId)
    requires filename == "/etc/passwd"
    ensures SafeResolveMediaPath(root, scope, tvId, filename) == Err(Forbidden)
  {
    EtcPasswdAbsoluteCandidate(root, scope, tvId, filename);
    ScopeDirNameNotEtcPasswd(scope, tvId);
  }

  lemma ScopeDirNameNotEtcPasswd(scope: string, tvId: Option<string>)
    ensures ScopeDirName(scope, tvId) !in ["etc", "passwd"]
  {
    var d := ScopeDirName(scope, tvId);
    assert d[0] == if scope == "common" then 'c' else 't';
  }

  lemma EtcPasswdAbsoluteCandidate(root: string, scope: string, tvId: Option<string>, filename: string)
    requires filename == "/etc/passwd"
    ensures Candidate(root, scope, tvId, filename) == ["etc", "passwd"]
  {
    var p := ["etc", "passwd"];
    EtcPasswdAbsolutePieces();
    JoinCons("etc", ["passwd"], Sep);
    ParseJoinedAbsolute(p);
  }

  /** A filename made only of `..` segments (`..`, `../..`, `/..`, ...)
      climbs above the base and is rejected, when a tv id holds no
      separator. */
  lemma ParentsOnlyForbidden(root: string, scope: string, tvId: Option<string>, filename: string, k: nat)
    requires AbsoluteRoot(root)
    requires ValidRequest(scope, tvId)
    requires IdWithoutSeparator(scope, tvId)
    requires k >= 1 && Parse(filename).parts == Ups(k)
    ensures SafeResolveMediaPath(root, scope, tvId, filename) == Err(Forbidden)
  {
    var base := BaseDir(root, scope, tvId);
    var ups := Ups(k);
    var c := Candidate(root, scope, tvId, filename);
    if Parse(filename).absolute {
      NormalizeParents([], k);
      assert c == [];
    } else {
      NormalizeParents(base, k);
      assert c == base[..if k <= |base| then |base| - k else 0];
    }
    assert |c| < |base|;
  }

  /** A relative filename that starts by climbing out of the base and never
      names the base directory again cannot come back inside the base, and
      is rejected, when a tv id holds no separator. Later segments may climb
      further or descend anywhere else (`../a/../../etc/passwd`). */
  lemma ClimbOutForbidden(root: string, scope: string, tvId: Option<string>, filename: string)
    requires AbsoluteRoot(root)
    requires ValidRequest(scope, tvId)
    requires IdWithoutSeparator(scope, tvId)
    requires !Parse(filename).absolute
    requires Parse(filename).parts != [] && Parse(filename).parts[0] == ".."
    requires ScopeDirName(scope, tvId) !in Parse(filename).parts
    ensures SafeResolveMediaPath(root, scope, tvId, filename) == Err(Forbidden)
  {
    var base := BaseDir(root, scope, tvId);
    var parts := Parse(filename).parts;
    var tail := parts[1..];
    assert base[|base| - 1] == ScopeDirName(scope, tvId);
    assert forall j :: 0 <= j < |tail| ==> tail[j] == parts[j + 1];
    assert Candidate(root, scope, tvId, filename) == Normalize(Parent(base), tail);
    NormalizeAvoids(base, Parent(base), tail);
  }

  lemma EtcPasswdParsed(filename: string)
    requires filename == "../../../etc/passwd"
    ensures Parse(filename) == PurePath(false, Ups(3) + ["etc", "passwd"])
  {
    JoinEtcPasswd();
    ParseJoined(Ups(3) + ["etc", "passwd"]);
  }

  lemma EtcPasswdPieces()
    ensures "../../../etc/passwd" == ".." + [Sep] + (".." + [Sep] + (".." + [Sep] + ("etc" + [Sep] + "passwd")))
  {
  }

  lemma JoinEtcPasswd()
    ensures Join(Ups(3) + ["etc", "passwd"], Sep) == "../../../etc/passwd"
  {
    var t := ["etc", "passwd"];
    JoinCons("etc", ["passwd"], Sep);
    JoinCons("..", t, Sep);
    JoinCons("..", [".."] + t, Sep);
    JoinCons("..", [".."] + ([".."] + t), Sep);
    assert Ups(3) + t == [".."] + ([".."] + ([".."] + t));
    EtcPasswdPieces();
  }

  /** `../../../etc/passwd` under collection `7` is rejected, whatever the
      root. */
  lemma EtcPasswdForbidden(root: string, filename: string)
    requires AbsoluteRoot(root) && filename == "../../../etc/passwd"
    ensures SafeResolveMediaPath(root, "tv", Some("7"), filename) == Err(Forbidden)
  {
    EtcPasswdParsed(filename);
    ScopeDirNameNotEtcPasswd("tv", Some("7"));
    ClimbOutForbidden(root, "tv", Some("7"), filename);
  }

  /** Climbing out and back into the same base (`../tv_<id>/...` for a tv
      id, `../common/...` for the common scope) is accepted: only the
      resolved location matters, not the presence of `..`. */
  lemma ClimbBackIntoBaseAccepted(root: string, scope: string, tvId: Option<string>, rest: seq<Segment>, filename: string)
    requires AbsoluteRoot(root) && ValidRequest(scope, tvId) && IdWithoutSeparator(scope, tvId)
    requires Canonical(rest)
    requires Parse(filename) == PurePath(false, [".."] + [ScopeDirName(scope, tvId)] + rest)
    ensures SafeResolveMediaPath(root, scope, tvId, filename) == Ok(RootDir(root) + [ScopeDirName(scope, tvId)] + rest)
  {
    var base := BaseDir(root, scope, tvId);
    var c := ClimbBackIntoBase(root, scope, tvId, rest, filename);
    assert Within(c, base) by {
      if rest != [] {
        assert base < c;
      }
    }
    assert SafeResolveMediaPath(root, scope, tvId, filename) == Ok(c);
  }

  /** Climbing out and back in lands on the base followed by the rest. */
  lemma ClimbBackIntoBase(root: string, scope: string, tvId: Option<string>, rest: seq<Segment>, filename: string)
    returns (c: seq<Segment>)
    requires ValidRequest(scope, tvId) && IdWithoutSeparator(scope, tvId)
    requires Canonical(rest)
    requires Parse(filename) == PurePath(false, [".."] + [ScopeDirName(scope, tvId)] + rest)
    ensures c == Candidate(root, scope, tvId, filename)
    ensures c == BaseDir(root, scope, tvId) + rest
  {
    var d := ScopeDirName(scope, tvId);
    var after := [d] + rest;
    assert Canonical(after) by {
      ScopeDirNamePlain(scope, tvId);
      forall i | 0 < i < |after| ensures after[i] == rest[i - 1] { }
    }
    assert [".."] + [d] + rest == [".."] + after;
    ClimbBackCandidate(root, scope, tvId, after, filename);
    c := RootDir(root) + after;
    ConcatAssoc(RootDir(root), [d], rest);
  }

  lemma ConcatAssoc(a: seq<Segment>, b: seq<Segment>, c: seq<Segment>)
    ensures a + (b + c) == a + b + c
  {
  }

  /** A filename that first climbs one level resolves from the parent of the
      base, which is the resolved root. */
  lemma ClimbBackCandidate(root: string, scope: string, tvId: Option<string>, after: seq<Segment>, filename: string)
    requires ValidRequest(scope, tvId)
    requires IdWithoutSeparator(scope, tvId)
    requires Canonical(after)
    requires Parse(filename) == PurePath(false, [".."] + after)
    ensures Candidate(root, scope, tvId, filename) == RootDir(root) + after
  {
    var r := RootDir(root);
    var base := BaseDir(root, scope, tvId);
    NormalizeAppend(base, [".."], after);
    assert Normalize(base, [".."]) == r;
    NormalizePlain(r, after);
  }

  /** A sibling directory whose name extends the base name (`tv_1x` next to
      `tv_1`) shares a string prefix with the base, yet is rejected. */
  lemma SiblingDirectoryForbidden(root: string, id: string, sibling: Segment, rest: seq<Segment>, filename: string)
    requires AbsoluteRoot(root) && id != "" && Sep !in id
    requires PlainSegment(sibling) && sibling != "tv_" + id && StartsWith(sibling, "tv_" + id)
    requires Canonical(rest)
    requires Parse(filename) == PurePath(false, [".."] + [sibling] + rest)
    ensures StartsWith(Render(Candidate(root, "tv", Some(id), filename)), Render(BaseDir(root, "tv", Some(id))))
    ensures SafeResolveMediaPath(root, "tv", Some(id), filename) == Err(Forbidden)
  {
    var r := RootDir(root);
    var d := "tv_" + id;
    ClimbBackCandidate(root, "tv", Some(id), [sibling] + rest, filename);
    var c := r + ([sibling] + rest);
    assert c[|r|] == sibling != d == (r + [d])[|r|];
    RenderedSibling(r, d, sibling, rest);
  }

  lemma RenderedSibling(r: seq<Segment>, d: Segment, sibling: Segment, rest: seq<Segment>)
    requires StartsWith(sibling, d)
    ensures StartsWith(Render(r + ([sibling] + rest)), Render(r + [d]))
  {
    SegsAppend(r, [sibling] + rest);
    SegsAppend(r, [d]);
    assert Segs([d]) == [Sep] + d;
    assert Segs([sibling] + rest) == [Sep] + sibling + Segs(rest);
    var long := Segs(r) + ([Sep] + sibling + Segs(rest));
    assert long[..|Segs(r) + ([Sep] + d)|] == Segs(r) + ([Sep] + d);
  }
}

=== FILE: strings.dfy ===
/** The few Python `str` operations the media library relies on, over
    `string` (a sequence of code points). */
module Strings {

  /** `s.startswith(prefix)` */
  predicate StartsWith(s: string, prefix: string) {
    |prefix| <= |s| && s[..|prefix|] == prefix
  }

  /** `sep.join(parts)` for a one-character separator. */
  function Join(parts: seq<string>, sep: char): string
  {
    if |parts| == 0 then ""
    else if |parts| == 1 then parts[0]
    else parts[0] + [sep] + Join(parts[1..], sep)
  }

  /** A join of two or more parts starts with the first part and a separator. */
  lemma JoinCons(a: string, rest: seq<string>, sep: char)
    requires |rest| >= 1
    ensures Join([a] + rest, sep) == a + [sep] + Join(rest, sep)
  {
    assert ([a] + rest)[1..] == rest;
  }

  /** `s.split(sep)` for a one-character separator: the pieces between
      separators, keeping empty pieces, so there is always at least one. */
  function Split(s: string, sep: char): (r: seq<string>)
    ensures |r| >= 1
    ensures forall i :: 0 <= i < |r| ==> sep !in r[i]
    decreases |s|
  {
    if |s| == 0 then [""]
    else if s[0] == sep then [""] + Split(s[1..], sep)
    else PrependToFirst(s[0], Split(s[1..], sep))
  }

  /** Extends the first piece of a split by one character. */
  function PrependToFirst(c: char, pieces: seq<string>): (r: seq<string>)
    requires |pieces| >= 1
    ensures |r| == |pieces| && r[0] == [c] + pieces[0] && r[1..] == pieces[1..]
  {
    [[c] + pieces[0]] + pieces[1..]
  }

  /** A piece without the separator is not split. */
  lemma {:induction false} SplitPiece(p: string, sep: char)
    requires sep !in p
    ensures Split(p, sep) == [p]
    decreases |p|
  {
    if |p| > 0 {
      SplitPiece(p[1..], sep);
      assert [p[0]] + p[1..] == p;
    }
  }

  /** A piece followed by the separator splits off as the first piece. */
  lemma {:induction false} SplitAfterPiece(p: string, sep: char, rest: string)
    requires sep !in p
    ensures Split(p + [sep] + rest, sep) == [p] + Split(rest, sep)
    decreases |p|
  {
    var s := p + [sep] + rest;
    if |p| == 0 {
      assert s[1..] == rest;
    } else {
      assert s[1..] == p[1..] + [sep] + rest;
      SplitAfterPiece(p[1..], sep, rest);
      assert [p[0]] + p[1..] == p;
    }
  }

  /** Splitting undoes joining when no part contains the separator. */
  lemma {:induction false} SplitJoin(parts: seq<string>, sep: char)
    requires |parts| >= 1
    requires forall i :: 0 <= i < |parts| ==> sep !in parts[i]
    ensures Split(Join(parts, sep), sep) == parts
    decreases |parts|
  {
    if |parts| == 1 {
      SplitPiece(parts[0], sep);
    } else {
      SplitAfterPiece(parts[0], sep, Join(parts[1..], sep));
      SplitJoin(parts[1..], sep);
      assert [parts[0]] + parts[1..] == parts;
    }
  }

  /** Joining undoes splitting, for every string. */
  lemma {:induction false} JoinSplit(s: string, sep: char)
    ensures Join(Split(s, sep), sep) == s
    decreases |s|
  {
    if |s| > 0 {
      var rest := Split(s[1..], sep);
      JoinSplit(s[1..], sep);
      if s[0] == sep {
        assert ([""] + rest)[1..] == rest;
        assert s == [sep] + s[1..];
      } else {
        var head := [s[0]] + rest[0];
        var pieces := [head] + rest[1..];
        if |rest| == 1 {
          assert pieces == [head];
          assert s == [s[0]] + s[1..];
        } else {
          assert pieces[1..] == rest[1..];
          assert Join(rest, sep) == rest[0] + [sep] + Join(rest[1..], sep);
          assert s == [s[0]] + s[1..];
        }
      }
    }
  }

  /** `c.lower()` restricted to ASCII letters. */
  function LowerChar(c: char): char {
    if 'A' <= c <= 'Z' then (c as int + 32) as char else c
  }

  /** `s.lower()` restricted to ASCII letters. */
  function Lower(s: string): (r: string)
    ensures |r| == |s|
  {
    if |s| == 0 then "" else [LowerChar(s[0])] + Lower(s[1..])
  }

  /** Lowering works character by character. */
  lemma {:induction false} LowerPointwise(s: string)
    ensures forall i :: 0 <= i < |s| ==> Lower(s)[i] == LowerChar(s[i])
    decreases |s|
  {
    if |s| > 0 {
      LowerPointwise(s[1..]);
      assert forall i :: 1 <= i < |s| ==> Lower(s)[i] == Lower(s[1..])[i - 1];
    }
  }

  /** Lowering an already lowered string changes nothing. */
  lemma LowerIdempotent(s: string)
    ensures Lower(Lower(s)) == Lower(s)
  {
    LowerPointwise(s);
    LowerPointwise(Lower(s));
  }

  /** Python's `a <= b` on strings: lexicographic by code point, with a
      proper prefix ordered first. */
  predicate LexLe(a: string, b: string) {
    |a| == 0 || (|b| > 0 && (a[0] < b[0] || (a[0] == b[0] && LexLe(a[1..], b[1..]))))
  }

  lemma {:induction false} LexLeReflexive(a: string)
    ensures LexLe(a, a)
    decreases |a|
  {
    if |a| > 0 {
      LexLeReflexive(a[1..]);
    }
  }

  lemma {:induction false} LexLeTotal(a: string, b: string)
    ensures LexLe(a, b) || LexLe(b, a)
    decreases |a|
  {
    if |a| > 0 && |b| > 0 && a[0] == b[0] {
      LexLeTotal(a[1..], b[1..]);
    }
  }

  lemma {:induction false} LexLeTransitive(a: string, b: string, c: string)
    requires LexLe(a, b) && LexLe(b, c)
    ensures LexLe(a, c)
    decreases |a|
  {
    if |a| > 0 && a[0] == b[0] && b[0] == c[0] {
      LexLeTransitive(a[1..], b[1..], c[1..]);
    }
  }

  /** `s.rfind(c)`: the index of the last `c` in `s`, or -1. */
  function LastIndexOf(s: string, c: char): (i: int)
    ensures -1 <= i < |s|
    ensures 0 <= i ==> s[i] == c
    ensures forall j :: i < j < |s| ==> s[j] != c
    decreases |s|
  {
    if |s| == 0 then -1
    else if s[|s| - 1] == c then |s| - 1
    else LastIndexOf(s[..|s| - 1], c)
  }
}
